=== FILE: README.md ===
# GcPubSub adapter — a Dafny model

This project models the decision logic of the `GcPubSub` class, a PHP adapter
over the Google Cloud Pub/Sub client, and proves properties of it. The
adapter has three parts:

- **Name resolution.** A configured prefix is put in front of every topic and
  subscription base name. The adapter's fields for these prefixes are called
  `topicSuffix` and `subscriptionSuffix`.
- **Get-or-create provisioning.** `getTopic`, `createSubscription` and
  `getSubscription` look a resource up and may create it, depending on three
  flags. They fail with 'Unexisting topic', 'Empty topic name' or
  'Unexisting subscription'. `deleteTopic`, `updateTopic`,
  `deleteSubscription` and `updateSubscription` provision the resource first,
  then act on it.
- **Publishing and the delivery/acknowledgment cycle.** `publish` shapes a
  message and validates its attributes. `consume` and `subscribe` pull a
  batch and skip messages whose `availableAt` lies in the future. They
  acknowledge every other message in pull order, and then either return it
  (`consume`) or hand its decoded payload to a handler (`subscribe`).

The broker is an immutable record (`Model.Broker`). It holds the set of
existing topic full names, and maps each subscription's full name to the full
name of the topic it was bound to. Every operation returns a `Run`: its
result (`Ok` or one of the `Error` kinds), the broker state afterwards, and
the trace of events it caused, in order. Events cover lookups, creations,
deletions, updates, publishes, pulls, acknowledgments, handler calls and
sleeps. The state and trace are kept on failure as well, because an exception
in PHP does not undo earlier broker calls.

Modules:

- `Model`: the types and the configuration record, including `DefaultConfig`,
  the defaults of a freshly constructed adapter (src/GcPubSub.php:24-96).
- `Naming`: full names.
- `Provisioning`: the get-or-create decision tree and provision-then-act.
- `Publishing`: `validateMessageAttributes` and `publish`.
- `Consuming`: `consume`, one `subscribe` cycle, and the `subscribe` loop.
- `DeliveryProperties`: the guarantees of the delivery cycle.
- `Scenarios`: concrete call sequences from the adapter's test suite.

Inputs that the adapter reads from the outside world are parameters of the
model:

- A pull's answer is a `Pull(now, messages)`. `now` stands for the value of
  `time()` while that batch is processed.
- The JSON codec is a pair of uninterpreted functions, `encode: Json -> string`
  and `decode: string -> Json`.
- The handler is a `Json -> bool`. `false` means the call threw.
- The `availableAt` attribute is an `Option<int>`. `None` stands for a missing
  or empty attribute. `Some(0)` stands for the falsy string "0", which never
  delays a message.

Two modelling decisions for cases the adapter leaves to the client:

- A direct `createTopic` on an existing topic, or a `create()` on an existing
  subscription, ends with the broker's conflict error. The model names these
  `TopicAlreadyExists` and `SubscriptionAlreadyExists`.
- `deleteTopic` keeps the subscriptions of the deleted topic but detaches
  them: their binding becomes `None`, which stands for the broker's
  `_deleted-topic_`. A topic created again under the same name has none of
  them.

## Model

| member | source | states |
|---|---|---|
| Naming.Qualify | src/GcPubSub.php:780-794 | a full name is as long as prefix plus base, and stripping the prefix gives the base name back |
| Naming.UnqualifyOnlyUndoesQualify | src/GcPubSub.php:780-794 | a full name strips to a given base name exactly when it is that base name with the prefix in front |
| Naming.QualifyInjective | src/GcPubSub.php:780-794 | two base names give the same full name under one prefix only if they are equal |
| Naming.TopicName | src/GcPubSub.php:780-783 | the full topic name strips back to its base name under the topic prefix |
| Naming.SubscriptionName | src/GcPubSub.php:791-794 | the full subscription name strips back to its base name under the subscription prefix |
| Naming.FullNamesArePrefixed | src/GcPubSub.php:780-794 | `getTopicName(b)` is `topicSuffix + b` and `getSubscriptionName(b)` is `subscriptionSuffix + b`, each depending on the configuration only through its own prefix |
| Provisioning.CreateTopic | src/GcPubSub.php:114-117 | creation succeeds exactly when the full name is absent, adds exactly that topic and records it; otherwise it is a conflict that changes nothing |
| Provisioning.GetTopic | src/GcPubSub.php:126-141 | always looks the full name up first. An existing topic is returned with no state change. A missing one is added, exactly that one topic, by the lookup followed by one creation, when `autoCreateTopic` holds; otherwise the result is 'Unexisting topic' and nothing changes. A creation appears in the trace exactly when the topic was missing and auto-creation is on |
| Provisioning.GetTopicIdempotent | src/GcPubSub.php:126-141 | a second `getTopic` after a successful one finds the topic, only looks it up, and changes nothing |
| Provisioning.TopicBaseFor | src/GcPubSub.php:217-224 | a PHP-falsy topic name ("" or "0") is replaced by the subscription name when `autoCreateTopicFromSubscription` holds and is 'Empty topic name' otherwise; any other topic name is kept |
| Provisioning.CreateSubscription | src/GcPubSub.php:215-230 | 'Empty topic name' fails before any broker call. A `getTopic` failure gives 'Unexisting topic' with no subscription created. Success binds exactly `subscriptionSuffix + sub` to the topic from `getTopic`, after that call's events. An existing subscription is a conflict right after those events. Existing topics and bindings are never lost, and valid bindings stay valid |
| Provisioning.GetSubscription | src/GcPubSub.php:240-255 | an existing subscription is returned after one lookup and no state change. A missing one with `autoCreateSubscription` behaves exactly as `createSubscription` after the lookup. Without the flag the result is 'Unexisting subscription' and no topic is touched |
| Provisioning.GetSubscriptionIdempotent | src/GcPubSub.php:240-255 | after a successful `getSubscription`, a second one, with any topic name, only looks it up and changes nothing |
| Provisioning.CreatedSubscriptionBinding | src/GcPubSub.php:226-229 | a subscription created by `getSubscription` is bound to the full name of the effective topic, and that topic exists |
| Provisioning.DeleteTopic | src/GcPubSub.php:149-155 | provisions through `getTopic` and has its result: it fails exactly when `getTopic` fails, with no change; on success exactly that topic is removed, every subscription survives, those bound to it are detached and the others keep their binding, and the deletion follows the provisioning events |
| Provisioning.UpdateTopic | src/GcPubSub.php:166-172 | provisions through `getTopic`, with the same result and state; on success the update with the given properties follows the provisioning events |
| Provisioning.DeleteSubscription | src/GcPubSub.php:263-269 | provisions through `getSubscription` with no topic name and has its result: it fails exactly when that call fails, in the same state; on success exactly that subscription is removed and no topic is lost |
| Provisioning.UpdateSubscription | src/GcPubSub.php:280-286 | provisions through `getSubscription` with no topic name, with the same result and state; on success the update follows |
| Provisioning.DeleteTopicUndoesCreate | src/GcPubSub.php:149-155 | when every attached subscription is bound to an existing topic, deleting a topic right after creating it restores the broker, after one lookup and the deletion |
| Provisioning.DeleteTopicKeepsBindings | src/GcPubSub.php:149-155 | after a topic is deleted, every subscription still attached is bound to an existing topic |
| Provisioning.RecreatedTopicHasNoSubscriptions | src/GcPubSub.php:126-155 | a topic deleted and then provisioned again through `getTopic` has no subscription bound to it |
| Provisioning.DeleteSubscriptionUndoesCreate | src/GcPubSub.php:263-269 | deleting a subscription right after creating it restores the subscriptions, after one lookup and the deletion; a topic created on the way stays |
| Provisioning.DeleteSubscriptionKeepsBindings | src/GcPubSub.php:263-269 | after a delete, every remaining subscription is still bound to an existing topic |
| Provisioning.UpdateExistingTopicChangesNothing | src/GcPubSub.php:166-172 | updating an existing topic changes no broker state: one lookup, then the update with the given properties |
| Provisioning.UpdateExistingSubscriptionChangesNothing | src/GcPubSub.php:280-286 | updating an existing subscription changes no broker state: one lookup, then the update with the given properties |
| Provisioning.DefaultsAlwaysProvision | src/GcPubSub.php:24-96 | under the default configuration (all auto-create flags on, empty prefixes) `getTopic` and `getSubscription` never fail and return the base name itself |
| Provisioning.DeleteMissingSubscriptionLeavesTopic | src/GcPubSub.php:263-269 | deleting a missing subscription under the defaults first creates the topic named after it, then the subscription, then deletes the subscription; the topic stays |
| Publishing.StringValueCount | src/GcPubSub.php:507-511 | the count of string values equals the array length exactly when every value is a string |
| Publishing.StringKeyCount | src/GcPubSub.php:513-517 | the count of string keys equals the array length exactly when every key is a string |
| Publishing.AsStringPairs | src/GcPubSub.php:519 | an array of string pairs is returned unchanged |
| Publishing.ValidateMessageAttributes | src/GcPubSub.php:505-520 | fails, with the attribute error, exactly when some key or some value is not a string; on success returns the array unchanged |
| Publishing.ValidateEmbedded | src/GcPubSub.php:505-520 | every array of string pairs passes validation and comes back as it was |
| Publishing.Publish | src/GcPubSub.php:313-330 | invalid attributes fail before any broker call. Otherwise the topic is provisioned through `getTopic` and the message is published after those events. An array or object is encoded and a string is sent verbatim. The attributes entry is present exactly when the attribute array is non-empty, and holds that array |
| Consuming.Due | src/GcPubSub.php:398-404 | a message is kept exactly when it is in the batch and not scheduled for later |
| Consuming.AckedIffDue | src/GcPubSub.php:398-407 | `consume` acknowledges a message exactly when it is in the batch and its `availableAt` is not in the future |
| Consuming.Collect | src/GcPubSub.php:394-408 | the loop collects exactly the due messages in pull order, and acknowledges each of them once, in that order |
| Consuming.Consume | src/GcPubSub.php:378-411 | provisions through `getSubscription` and fails as it does. Otherwise it pulls once with `returnImmediately` true and the configured `maxMessages`, acknowledges the due messages in pull order, and returns exactly those messages |
| Consuming.Handed | src/GcPubSub.php:483-487 | the handler sees a prefix of the due messages: every call but the last returned, and if some messages were not reached, the last call threw |
| Consuming.DispatchDelivers | src/GcPubSub.php:472-488 | a cycle's loop acknowledges and hands over the due messages in pull order, each acknowledgment directly before the handler call with that message's decoded data, up to the first call that throws |
| Consuming.DispatchSucceeds | src/GcPubSub.php:472-488 | a cycle completes exactly when the handler call of every due message returns |
| Consuming.SubscribeCycle | src/GcPubSub.php:470-488 | one cycle pulls with the configured `maxMessages` and `returnImmediately`, then runs the message loop |
| Consuming.SleepAfterCycle | src/GcPubSub.php:490-492 | a cycle is followed by a sleep of `delay` exactly when `infiniteLoop`, `returnImmediately` and a non-zero `delay` all hold, and by nothing otherwise |
| Consuming.Rounds | src/GcPubSub.php:465-494 | a non-looping `subscribe` sees exactly one pull answer; a looping one sees the first answer first |
| Consuming.RunCycles | src/GcPubSub.php:465-494 | the loop runs one cycle per observed pull answer, each followed by the configured sleep, and stops at the first cycle whose handler throws |
| Consuming.Subscribe | src/GcPubSub.php:455-495 | provisions through `getSubscription` and fails as it does. Otherwise the cycles follow the provisioning events, and the run fails exactly when a handler call threw |
| DeliveryProperties.DeliveriesAckBeforeHandle | src/GcPubSub.php:482-487 | in the deliveries of a batch, every handler call directly follows the acknowledgment of the message whose decoded data it receives |
| DeliveryProperties.DispatchAckBeforeHandle | src/GcPubSub.php:472-488 | in a cycle's loop, each handler call directly follows its message's acknowledgment, and the loop starts with an acknowledgment |
| DeliveryProperties.CyclesAckBeforeHandle | src/GcPubSub.php:465-494 | over a whole `subscribe` run, each handler call directly follows its message's acknowledgment, and the run starts with a pull |
| DeliveryProperties.DispatchAcksOnlyDue | src/GcPubSub.php:476-483 | every acknowledgment in a cycle is for a message of the batch that is not scheduled for later |
| DeliveryProperties.DelayedNeverAcked | src/GcPubSub.php:476-480 | a message whose `availableAt` is in the future is never acknowledged by a cycle |
| DeliveryProperties.CycleDeliversAllDue | src/GcPubSub.php:472-488 | when every handler call returns, a cycle acknowledges and hands over every due message in pull order and completes |
| DeliveryProperties.CyclesStopAtThrow | src/GcPubSub.php:465-494 | a `subscribe` run whose handler throws stops at that call: the run's last two events are the acknowledgment of a message and the throwing handler call on its decoded data, with no pull, ack or handler call after it |
| DeliveryProperties.FailedHandlerMessageWasAcked | src/GcPubSub.php:483-487 | a cycle that fails ends with a handler call that threw, directly after the acknowledgment of the message it received |
| DeliveryProperties.DispatchOnlyAcksAndHandles | src/GcPubSub.php:472-488 | a cycle's loop only acknowledges and calls the handler |
| DeliveryProperties.SingleCycleWithoutLoop | src/GcPubSub.php:465-494 | with `infiniteLoop` false there is exactly one pull, at the start, and no sleep |
| DeliveryProperties.SleepOnlyWhenConfigured | src/GcPubSub.php:490-492 | a sleep in a run lasts `delay` and happens only when `infiniteLoop`, `returnImmediately` and a non-zero `delay` all hold |
| DeliveryProperties.SleepAfterCompletedCycle | src/GcPubSub.php:490-492 | under those three conditions, a completed cycle is directly followed by a sleep of `delay` |
| DeliveryProperties.PublishedPayloadReachesHandler | src/GcPubSub.php:315-320 | the data of a published message, pulled and due, reaches the handler as the published structured value when decoding undoes encoding, or as the decoded text otherwise, right after its acknowledgment |
| Scenarios.ProvisionFromSubscriptionName | tests/GcPubSubTest.php:1204-1294 | with both prefixes set and no topic name, `getSubscription` on an empty broker creates `mytopic_id`, then `mysubscriber_id` bound to it |
| Scenarios.MissingSubscriptionTouchesNoTopic | tests/GcPubSubTest.php:800-826 | without `autoCreateSubscription`, a missing subscription fails after one lookup, touching no topic |
| Scenarios.EmptyTopicNameFailsFirst | tests/GcPubSubTest.php:541-559 | without `autoCreateTopicFromSubscription`, an empty topic name fails before any broker call |
| Scenarios.PublishRejectsNestedAttribute | tests/GcPubSubTest.php:1012-1031 | an attribute whose value is an array makes `publish` fail before any broker call |
| Scenarios.ConsumeSkipsFutureMessage | src/GcPubSub.php:398-407 | of a message due in sixty seconds and an unscheduled one, `consume` returns and acknowledges only the second |
| Scenarios.OnePullSubscribe | tests/GcPubSubTest.php:1204-1294 | the one-pull subscribe test: one pull of at most ten messages with immediate return, answered with two messages, then ack and handle of the first message, then of the second, and no sleep |

## Left out

- `publishBatch` (src/GcPubSub.php:343-369) is not modelled. It depends on an
  environment-variable check, `trigger_error` and the client's batch
  publisher.
- `getTopics`, `getSubscriptions` and `deleteTopics` are not modelled. They
  only iterate the client's lists.
- The debug output (`debugInfo` and the echo lines in `consume` and
  `subscribe`) is not modelled, because it is console output only. The
  `debug` flag is kept in the configuration.
- Decoded JSON numbers are exact: a `JInt` is unbounded and a `JFloat` is an
  exact real. PHP's `json_decode` turns an integer beyond the platform's int
  range into a float and rounds floats to double precision; neither is
  modelled, since the codec itself is a parameter.
- `callPeriod` and `getCallPeriod` are not modelled. They are floats, and the
  getter truncates the value to an int.
- The getters and setters of the configuration are not modelled. A
  configuration is an immutable record, and a setter corresponds to a record
  update.
- The real `sleep` is a `Slept` event, and handler side effects are not
  modelled.
- Consuming.Consume and Consuming.SubscribeCycle read the clock once per
  pull, while the source calls `time()` again for every message; a clock that
  moves during a batch is not modelled.
- Consuming.Subscribe runs over a finite list of observed pull answers; with
  `infiniteLoop` the source never returns, so the model covers every finite
  prefix of such a run.
- Consuming.Due compares `availableAt` as an integer; a non-numeric or
  unusual attribute string (such as "00", which PHP treats as truthy) is not
  modelled beyond the "" / "0" cases.
- Publishing.Publish returns the message handed to the broker instead of the
  broker's publish response, which comes from the client library.
- Publishing.Publish takes only a string or an array/object as data. The
  source passes any other scalar (int, float, bool, null) to the client
  unencoded; that case is not modelled.
- Provisioning.GetTopic, Provisioning.CreateSubscription and
  Provisioning.DefaultsAlwaysProvision assume that every client call
  succeeds except the two creation conflicts (`TopicAlreadyExists`,
  `SubscriptionAlreadyExists`). Transport and permission errors are not
  modelled. Neither are concurrent creation races, such as another client
  creating the topic between `exists()` and `createTopic()`
  (src/GcPubSub.php:130-134); the model is single-client.
- Publishing.ValidateMessageAttributes takes keys as the PHP array stores
  them, so decimal-integer string keys already arrive as integer keys; the
  conversion itself is not modelled.
- The JSON codec's internals are not modelled. Encoding and decoding are
  uninterpreted functions, and round trips are stated only under an explicit
  hypothesis.
- Broker-side redelivery of unacknowledged messages, message ordering and
  acknowledgment deadlines are broker behaviour and not modelled.
- A negative `delay` passed to `sleep` is not modelled; the model records
  the sleep event with the configured value.

=== FILE: consuming.dfy ===
/**
 The delivery/acknowledgment cycle of `consume` and `subscribe`: pull a
 batch, skip the messages scheduled for later, acknowledge every other
 message in pull order, then collect it or hand its decoded payload to the
 handler.
 */
module Consuming {
  import opened Model
  import opened Provisioning

  /** The answer to one pull, with the clock reading `time()` gives while the
      batch is processed. */
  datatype Pull = Pull(now: int, messages: seq<InboundMessage>)

  /** `$availableAt && $availableAt > time()`: the message is scheduled for
      later. A falsy `availableAt` ("0") never delays a message. */
  predicate Delayed(m: InboundMessage, now: int) {
    m.availableAt.Some? && m.availableAt.value != 0 && m.availableAt.value > now
  }

  /** The messages of a batch that are not delayed, in pull order. */
  function Due(ms: seq<InboundMessage>, now: int): (d: seq<InboundMessage>)
    ensures |d| <= |ms|
    ensures forall m :: m in d <==> m in ms && !Delayed(m, now)
  {
    if ms == [] then []
    else (if Delayed(ms[0], now) then [] else [ms[0]]) + Due(ms[1..], now)
  }

  /** Filtering a batch piecewise is filtering it whole: `Due` keeps the pull
      order and looks at each message on its own. */
  lemma {:induction false} DueAppend(a: seq<InboundMessage>, b: seq<InboundMessage>, now: int)
    ensures Due(a + b, now) == Due(a, now) + Due(b, now)
    decreases |a|
  {
    if a == [] {
      assert a + b == b;
    } else {
      assert (a + b)[0] == a[0];
      assert (a + b)[1..] == a[1..] + b;
      DueAppend(a[1..], b, now);
    }
  }

  /** One acknowledgment per message, in order. */
  function Acks(subscription: string, ms: seq<InboundMessage>): (ev: seq<Event>)
    ensures |ev| == |ms|
    ensures forall i :: 0 <= i < |ms| ==> ev[i] == Acked(subscription, ms[i])
  {
    seq(|ms|, i requires 0 <= i < |ms| => Acked(subscription, ms[i]))
  }

  /** A message of a batch is acknowledged by `consume` exactly when it is not
      delayed. */
  lemma AckedIffDue(subscription: string, ms: seq<InboundMessage>, now: int, m: InboundMessage)
    ensures Acked(subscription, m) in Acks(subscription, Due(ms, now)) <==> m in ms && !Delayed(m, now)
  {
  }

  /** Filtering one more message of a batch extends the filtered prefix by that
      message exactly when it is not delayed. */
  lemma DueSnoc(ms: seq<InboundMessage>, i: nat, now: int)
    requires i < |ms|
    ensures Due(ms[..i + 1], now) == Due(ms[..i], now) + (if Delayed(ms[i], now) then [] else [ms[i]])
  {
    assert ms[..i + 1] == ms[..i] + [ms[i]];
    DueAppend(ms[..i], [ms[i]], now);
    assert [ms[i]][1..] == [];
  }

  /** Acknowledging one more message appends its acknowledgment. */
  lemma AcksSnoc(subscription: string, ms: seq<InboundMessage>, m: InboundMessage)
    ensures Acks(subscription, ms + [m]) == Acks(subscription, ms) + [Acked(subscription, m)]
  {
  }

  /** The message loop of `consume` on the resolved subscription: every
      message that is not delayed is collected and acknowledged, in pull
      order. */
  method Collect(subscription: string, pull: Pull) returns (messages: seq<InboundMessage>, acks: seq<Event>)
    ensures messages == Due(pull.messages, pull.now)
    ensures acks == Acks(subscription, messages)
  {
    messages := [];
    acks := [];
    var i := 0;
    while i < |pull.messages|
      invariant 0 <= i <= |pull.messages|
      invariant messages == Due(pull.messages[..i], pull.now)
      invariant acks == Acks(subscription, messages)
    {
      var m := pull.messages[i];
      DueSnoc(pull.messages, i, pull.now);
      if !Delayed(m, pull.now) {
        AcksSnoc(subscription, messages, m);
        messages := messages + [m];
        acks := acks + [Acked(subscription, m)];
      }
      i := i + 1;
    }
    assert pull.messages[..i] == pull.messages;
  }

  /** `consume`: provisions the subscription through `getSubscription`, pulls
      once with `returnImmediately` forced on and the configured
      `maxMessages`, acknowledges every message that is not delayed in pull
      order, and returns exactly those messages in that order. */
  method Consume(cfg: Config, b: Broker, subscription: string, topicBase: string, pull: Pull)
    returns (r: Run<seq<InboundMessage>>)
    ensures var g := GetSubscription(cfg, b, subscription, topicBase);
      && (g.result.Err? ==> r == Run(Err(g.result.error), g.broker, g.trace))
      && (g.result.Ok? ==>
            r == Run(Ok(Due(pull.messages, pull.now)), g.broker,
                     g.trace + [Pulled(g.result.value, cfg.maxMessages, true)]
                       + Acks(g.result.value, Due(pull.messages, pull.now))))
  {
    var g := GetSubscription(cfg, b, subscription, topicBase);
    if g.result.Err? {
      return Run(Err(g.result.error), g.broker, g.trace);
    }
    var messages, acks := Collect(g.result.value, pull);
    r := Run(Ok(messages), g.broker, g.trace + [Pulled(g.result.value, cfg.maxMessages, true)] + acks);
  }

  /** Acknowledgment and handler call for each message, in order. */
  function Deliveries(subscription: string, d: seq<InboundMessage>, decode: string -> Json): (ev: seq<Event>)
    ensures |ev| == 2 * |d|
    ensures forall i :: 0 <= i < |d| ==>
      ev[2 * i] == Acked(subscription, d[i]) && ev[2 * i + 1] == Handled(decode(d[i].data))
  {
    if d == [] then []
    else [Acked(subscription, d[0]), Handled(decode(d[0].data))] + Deliveries(subscription, d[1..], decode)
  }

  /** The messages that reach the handler: all of them, up to and including
      the first one whose handler call throws. */
  function Handed(d: seq<InboundMessage>, decode: string -> Json, handler: Json -> bool): (h: seq<InboundMessage>)
    ensures |h| <= |d| && h == d[..|h|]
    ensures forall i :: 0 <= i < |h| - 1 ==> handler(decode(h[i].data))
    ensures |h| < |d| ==> |h| > 0 && !handler(decode(h[|h| - 1].data))
  {
    if d == [] then []
    else if !handler(decode(d[0].data)) then [d[0]]
    else [d[0]] + Handed(d[1..], decode, handler)
  }

  /** The events of the message loop of one `subscribe` cycle, and whether
      every handler call returned (`false`: the handler threw, which ends the
      cycle and the whole `subscribe`). */
  function Dispatch(subscription: string, ms: seq<InboundMessage>, now: int,
                    decode: string -> Json, handler: Json -> bool): (r: (seq<Event>, bool))
    decreases |ms|
  {
    if ms == [] then ([], true)
    else
      var m := ms[0];
      var rest := Dispatch(subscription, ms[1..], now, decode, handler);
      if Delayed(m, now) then rest
      else
        var payload := decode(m.data);
        if !handler(payload) then ([Acked(subscription, m), Handled(payload)], false)
        else ([Acked(subscription, m), Handled(payload)] + rest.0, rest.1)
  }

  /** One `subscribe` cycle acknowledges and hands over the due messages in
      pull order, up to and including the first handler call that throws. */
  lemma {:induction false} DispatchDelivers(subscription: string, ms: seq<InboundMessage>, now: int,
                                            decode: string -> Json, handler: Json -> bool)
    ensures Dispatch(subscription, ms, now, decode, handler).0
            == Deliveries(subscription, Handed(Due(ms, now), decode, handler), decode)
    decreases |ms|
  {
    if ms == [] {
      assert Due(ms, now) == [];
    } else {
      var m := ms[0];
      var t := ms[1..];
      var rest := Dispatch(subscription, t, now, decode, handler);
      DispatchDelivers(subscription, t, now, decode, handler);
      if Delayed(m, now) {
        assert Due(ms, now) == Due(t, now);
      } else {
        var d := Due(ms, now);
        assert d == [m] + Due(t, now);
        assert d[0] == m && d[1..] == Due(t, now);
        var h := Handed(d, decode, handler);
        if handler(decode(m.data)) {
          assert Dispatch(subscription, ms, now, decode, handler).0
                 == [Acked(subscription, m), Handled(decode(m.data))] + rest.0;
          assert h == [m] + Handed(Due(t, now), decode, handler);
          DeliveriesCons(subscription, m, Handed(Due(t, now), decode, handler), decode);
        } else {
          assert Dispatch(subscription, ms, now, decode, handler).0
                 == [Acked(subscription, m), Handled(decode(m.data))];
          assert h == [m];
          DeliveriesCons(subscription, m, [], decode);
        }
      }
    }
  }

  lemma DeliveriesCons(subscription: string, m: InboundMessage, d: seq<InboundMessage>, decode: string -> Json)
    ensures Deliveries(subscription, [m] + d, decode)
            == [Acked(subscription, m), Handled(decode(m.data))] + Deliveries(subscription, d, decode)
  {
  }

  /** One `subscribe` cycle reports success exactly when the handler call of
      every due message returned. */
  lemma {:induction false} DispatchSucceeds(subscription: string, ms: seq<InboundMessage>, now: int,
                                            decode: string -> Json, handler: Json -> bool)
    ensures Dispatch(subscription, ms, now, decode, handler).1
            <==> forall m :: m in Due(ms, now) ==> handler(decode(m.data))
    decreases |ms|
  {
    if ms != [] {
      var m := ms[0];
      var t := ms[1..];
      DispatchSucceeds(subscription, t, now, decode, handler);
      if !Delayed(m, now) {
        assert Due(ms, now) == [m] + Due(t, now);
      }
    }
  }

  /** One step of `Dispatch` at position `i` of a batch. */
  lemma DispatchStep(subscription: string, ms: seq<InboundMessage>, i: nat, now: int,
                     decode: string -> Json, handler: Json -> bool)
    requires i < |ms|
    ensures var rest := Dispatch(subscription, ms[i + 1..], now, decode, handler);
      var delivery := [Acked(subscription, ms[i]), Handled(decode(ms[i].data))];
      Dispatch(subscription, ms[i..], now, decode, handler)
        == if Delayed(ms[i], now) then rest
           else if handler(decode(ms[i].data)) then (delivery + rest.0, rest.1)
           else (delivery, false)
  {
  }

  /** One `subscribe` cycle on the resolved subscription: a pull with the
      configured `maxMessages` and `returnImmediately`, then the message loop. */
  method SubscribeCycle(cfg: Config, subscription: string, pull: Pull,
                        decode: string -> Json, handler: Json -> bool)
    returns (events: seq<Event>, ok: bool)
    ensures var d := Dispatch(subscription, pull.messages, pull.now, decode, handler);
      events == [Pulled(subscription, cfg.maxMessages, cfg.returnImmediately)] + d.0 && ok == d.1
  {
    var ms := pull.messages;
    var head := [Pulled(subscription, cfg.maxMessages, cfg.returnImmediately)];
    events := head;
    ok := true;
    var i := 0;
    while i < |ms|
      invariant 0 <= i <= |ms|
      invariant events + Dispatch(subscription, ms[i..], pull.now, decode, handler).0
                == head + Dispatch(subscription, ms, pull.now, decode, handler).0
      invariant Dispatch(subscription, ms[i..], pull.now, decode, handler).1
                == Dispatch(subscription, ms, pull.now, decode, handler).1
    {
      var m := ms[i];
      DispatchStep(subscription, ms, i, pull.now, decode, handler);
      if !Delayed(m, pull.now) {
        // The acknowledgment precedes the handler call.
        var rest := Dispatch(subscription, ms[i + 1..], pull.now, decode, handler).0;
        var before := events;
        events := events + [Acked(subscription, m)];
        var payload := decode(m.data);
        events := events + [Handled(payload)];
        assert before + ([Acked(subscription, m), Handled(payload)] + rest) == events + rest;
        if !handler(payload) {
          ok := false;
          return;
        }
      }
      i := i + 1;
    }
  }

  /** The sleep after a cycle: only in an infinite loop of immediate-return
      pulls with a non-zero delay. */
  function SleepAfterCycle(cfg: Config, infiniteLoop: bool): (ev: seq<Event>)
    ensures ev == [] || ev == [Slept(cfg.delay)]
    ensures ev != [] <==> infiniteLoop && cfg.returnImmediately && cfg.delay != 0
  {
    if infiniteLoop && cfg.returnImmediately && cfg.delay != 0 then [Slept(cfg.delay)] else []
  }

  /** The events of consecutive `subscribe` cycles over the given pull
      answers, and whether every handler call returned. */
  function Cycles(cfg: Config, subscription: string, pulls: seq<Pull>, infiniteLoop: bool,
                  decode: string -> Json, handler: Json -> bool): (r: (seq<Event>, bool))
    decreases |pulls|
  {
    if pulls == [] then ([], true)
    else
      var d := Dispatch(subscription, pulls[0].messages, pulls[0].now, decode, handler);
      var cycle := [Pulled(subscription, cfg.maxMessages, cfg.returnImmediately)] + d.0;
      if !d.1 then (cycle, false)
      else
        var rest := Cycles(cfg, subscription, pulls[1..], infiniteLoop, decode, handler);
        (cycle + SleepAfterCycle(cfg, infiniteLoop) + rest.0, rest.1)
  }

  /** The pull answers a `subscribe` run sees: only the first one without the
      infinite loop; otherwise the first one and those of the later cycles
      observed (the run itself never ends). */
  function Rounds(infiniteLoop: bool, first: Pull, later: seq<Pull>): (pulls: seq<Pull>)
    ensures |pulls| >= 1 && pulls[0] == first
    ensures !infiniteLoop ==> pulls == [first]
  {
    if infiniteLoop then [first] + later else [first]
  }

  /** One step of `Cycles` at position `k` of the pull answers: the cycle of
      that answer, then, when its handler calls all returned, the sleep and
      the remaining cycles. */
  lemma CyclesStep(cfg: Config, subscription: string, pulls: seq<Pull>, k: nat, infiniteLoop: bool,
                   decode: string -> Json, handler: Json -> bool)
    requires k < |pulls|
    ensures var d := Dispatch(subscription, pulls[k].messages, pulls[k].now, decode, handler);
      var cycle := [Pulled(subscription, cfg.maxMessages, cfg.returnImmediately)] + d.0;
      var later := Cycles(cfg, subscription, pulls[k + 1..], infiniteLoop, decode, handler);
      Cycles(cfg, subscription, pulls[k..], infiniteLoop, decode, handler)
        == if d.1 then (cycle + SleepAfterCycle(cfg, infiniteLoop) + later.0, later.1) else (cycle, false)
  {
  }

  /** Consecutive cycles over the observed pull answers, stopping at the
      first cycle whose handler throws. */
  method RunCycles(cfg: Config, subscription: string, pulls: seq<Pull>, infiniteLoop: bool,
                   decode: string -> Json, handler: Json -> bool)
    returns (events: seq<Event>, ok: bool)
    ensures var c := Cycles(cfg, subscription, pulls, infiniteLoop, decode, handler);
      events == c.0 && ok == c.1
  {
    events := [];
    var k := 0;
    while k < |pulls|
      invariant 0 <= k <= |pulls|
      invariant events + Cycles(cfg, subscription, pulls[k..], infiniteLoop, decode, handler).0
                == Cycles(cfg, subscription, pulls, infiniteLoop, decode, handler).0
      invariant Cycles(cfg, subscription, pulls[k..], infiniteLoop, decode, handler).1
                == Cycles(cfg, subscription, pulls, infiniteLoop, decode, handler).1
    {
      var cycle, cycleOk := SubscribeCycle(cfg, subscription, pulls[k], decode, handler);
      var here := Cycles(cfg, subscription, pulls[k..], infiniteLoop, decode, handler);
      var later := Cycles(cfg, subscription, pulls[k + 1..], infiniteLoop, decode, handler);
      var sleep := SleepAfterCycle(cfg, infiniteLoop);
      CyclesStep(cfg, subscription, pulls, k, infiniteLoop, decode, handler);
      if !cycleOk {
        assert here == (cycle, false);
        return events + cycle, false;
      }
      assert here == (cycle + sleep + later.0, later.1);
      assert events + (cycle + sleep + later.0) == (events + cycle + sleep) + later.0;
      events := events + cycle + sleep;
      k := k + 1;
    }
    ok := true;
  }

  /** `subscribe`: provisions the subscription through `getSubscription`, then
      runs cycles until the observed pulls are exhausted or a handler throws. */
  method Subscribe(cfg: Config, b: Broker, subscription: string, topicBase: string,
                   infiniteLoop: bool, first: Pull, later: seq<Pull>,
                   decode: string -> Json, handler: Json -> bool)
    returns (r: Run<()>)
    ensures var g := GetSubscription(cfg, b, subscription, topicBase);
      && (g.result.Err? ==> r == Run(Err(g.result.error), g.broker, g.trace))
      && (g.result.Ok? ==>
            var c := Cycles(cfg, g.result.value, Rounds(infiniteLoop, first, later), infiniteLoop, decode, handler);
            && r.broker == g.broker
            && r.trace == g.trace + c.0
            && (r.result == if c.1 then Ok(()) else Err(HandlerFailed)))
  {
    var g := GetSubscription(cfg, b, subscription, topicBase);
    if g.result.Err? {
      return Run(Err(g.result.error), g.broker, g.trace);
    }
    var events, ok := RunCycles(cfg, g.result.value, Rounds(infiniteLoop, first, later), infiniteLoop, decode, handler);
    r := Run(if ok then Ok(()) else Err(HandlerFailed), g.broker, g.trace + events);
  }
}

=== FILE: delivery_properties.dfy ===
/**
 What the delivery/acknowledgment cycle guarantees: no message reaches the
 caller or the handler before it is acknowledged, delayed messages are never
 acknowledged, a non-looping `subscribe` pulls exactly once and never sleeps,
 and a sleep happens only under the three conditions that enable it.
 */
module DeliveryProperties {
  import opened Model
  import opened Publishing
  import opened Consuming

  /** Every handler call in `ev` directly follows the acknowledgment, on
      `subscription`, of the message whose decoded data it receives. */
  predicate AckedBeforeHandled(ev: seq<Event>, subscription: string, decode: string -> Json) {
    forall j :: 0 <= j < |ev| && ev[j].Handled? ==>
      && j > 0
      && ev[j - 1].Acked?
      && ev[j - 1].subscription == subscription
      && ev[j].payload == decode(ev[j - 1].inbound.data)
  }

  lemma {:induction false} DeliveriesAckBeforeHandle(subscription: string, d: seq<InboundMessage>, decode: string -> Json)
    ensures AckedBeforeHandled(Deliveries(subscription, d, decode), subscription, decode)
    ensures d != [] ==> Deliveries(subscription, d, decode)[0].Acked?
    decreases |d|
  {
    if d != [] {
      var pair := [Acked(subscription, d[0]), Handled(decode(d[0].data))];
      assert Deliveries(subscription, d, decode) == pair + Deliveries(subscription, d[1..], decode);
      DeliveriesAckBeforeHandle(subscription, d[1..], decode);
      assert AckedBeforeHandled(pair, subscription, decode);
      AckedBeforeHandledAppend(pair, Deliveries(subscription, d[1..], decode), subscription, decode);
    }
  }

  /** Gluing two well-ordered traces keeps them well ordered, unless the second
      one starts with a handler call. */
  lemma AckedBeforeHandledAppend(a: seq<Event>, b: seq<Event>, subscription: string, decode: string -> Json)
    requires AckedBeforeHandled(a, subscription, decode)
    requires AckedBeforeHandled(b, subscription, decode)
    requires b == [] || !b[0].Handled?
    ensures AckedBeforeHandled(a + b, subscription, decode)
  {
  }

  /** In one cycle's message loop, each handler call is immediately preceded
      by the acknowledgment of its message. */
  lemma DispatchAckBeforeHandle(subscription: string, ms: seq<InboundMessage>, now: int,
                                decode: string -> Json, handler: Json -> bool)
    ensures var ev := Dispatch(subscription, ms, now, decode, handler).0;
      AckedBeforeHandled(ev, subscription, decode) && (ev == [] || ev[0].Acked?)
  {
  }

  /** In a whole `subscribe` run, each handler call is immediately preceded by
      the acknowledgment of its message. */
  lemma {:induction false} CyclesAckBeforeHandle(cfg: Config, subscription: string, pulls: seq<Pull>,
                                                 infiniteLoop: bool, decode: string -> Json, handler: Json -> bool)
    ensures var ev := Cycles(cfg, subscription, pulls, infiniteLoop, decode, handler).0;
      AckedBeforeHandled(ev, subscription, decode) && (ev == [] || ev[0].Pulled?)
    decreases |pulls|
  {
    if pulls != [] {
      var p := pulls[0];
      var d := Dispatch(subscription, p.messages, p.now, decode, handler);
      var head := [Pulled(subscription, cfg.maxMessages, cfg.returnImmediately)];
      assert pulls[0..] == pulls;
      CyclesStep(cfg, subscription, pulls, 0, infiniteLoop, decode, handler);
      DispatchAckBeforeHandle(subscription, p.messages, p.now, decode, handler);
      assert AckedBeforeHandled(head, subscription, decode);
      AckedBeforeHandledAppend(head, d.0, subscription, decode);
      if d.1 {
        var sleep := SleepAfterCycle(cfg, infiniteLoop);
        var rest := Cycles(cfg, subscription, pulls[1..], infiniteLoop, decode, handler);
        assert Cycles(cfg, subscription, pulls, infiniteLoop, decode, handler).0 == head + d.0 + sleep + rest.0;
        CyclesAckBeforeHandle(cfg, subscription, pulls[1..], infiniteLoop, decode, handler);
        assert AckedBeforeHandled(sleep, subscription, decode);
        AckedBeforeHandledAppend(head + d.0, sleep, subscription, decode);
        AckedBeforeHandledAppend(head + d.0 + sleep, rest.0, subscription, decode);
      } else {
        assert Cycles(cfg, subscription, pulls, infiniteLoop, decode, handler).0 == head + d.0;
      }
    }
  }

  /** An acknowledgment in a cycle's message loop is for a message of the
      batch that is not delayed. */
  lemma {:induction false} DispatchAcksOnlyDue(subscription: string, ms: seq<InboundMessage>, now: int,
                                               decode: string -> Json, handler: Json -> bool, m: InboundMessage)
    requires Acked(subscription, m) in Dispatch(subscription, ms, now, decode, handler).0
    ensures m in ms && !Delayed(m, now)
    decreases |ms|
  {
    var t := ms[1..];
    var rest := Dispatch(subscription, t, now, decode, handler);
    if Delayed(ms[0], now) || m != ms[0] {
      assert Acked(subscription, m) in rest.0;
      DispatchAcksOnlyDue(subscription, t, now, decode, handler, m);
      assert m in t;
    }
  }

  /** A delayed message is never acknowledged by a `subscribe` cycle. */
  lemma DelayedNeverAcked(subscription: string, ms: seq<InboundMessage>, now: int,
                          decode: string -> Json, handler: Json -> bool, m: InboundMessage)
    requires Delayed(m, now)
    ensures Acked(subscription, m) !in Dispatch(subscription, ms, now, decode, handler).0
  {
  }

  /** When every handler call returns, a cycle acknowledges and hands over
      every due message, in pull order. */
  lemma {:induction false} CycleDeliversAllDue(subscription: string, ms: seq<InboundMessage>, now: int,
                                               decode: string -> Json, handler: Json -> bool)
    requires forall m :: m in Due(ms, now) ==> handler(decode(m.data))
    ensures Dispatch(subscription, ms, now, decode, handler) == (Deliveries(subscription, Due(ms, now), decode), true)
    decreases |ms|
  {
    if ms != [] {
      var m := ms[0];
      var t := ms[1..];
      if Delayed(m, now) {
        assert Due(ms, now) == Due(t, now);
        CycleDeliversAllDue(subscription, t, now, decode, handler);
      } else {
        assert Due(ms, now) == [m] + Due(t, now);
        assert m in Due(ms, now);
        CycleDeliversAllDue(subscription, t, now, decode, handler);
        DeliveriesCons(subscription, m, Due(t, now), decode);
      }
    }
  }

  /** A handler call that throws ends the cycle right after it, and its
      message had already been acknowledged. */
  lemma {:induction false} FailedHandlerMessageWasAcked(subscription: string, ms: seq<InboundMessage>, now: int,
                                                        decode: string -> Json, handler: Json -> bool)
    requires !Dispatch(subscription, ms, now, decode, handler).1
    ensures var ev := Dispatch(subscription, ms, now, decode, handler).0;
      && |ev| >= 2
      && ev[|ev| - 2].Acked?
      && ev[|ev| - 1] == Handled(decode(ev[|ev| - 2].inbound.data))
      && !handler(ev[|ev| - 1].payload)
    decreases |ms|
  {
    var m := ms[0];
    var rest := Dispatch(subscription, ms[1..], now, decode, handler);
    if Delayed(m, now) || handler(decode(m.data)) {
      FailedHandlerMessageWasAcked(subscription, ms[1..], now, decode, handler);
    }
  }

  /** A `subscribe` run whose handler throws stops there: its last events are
      the acknowledgment of a message and the handler call on that message's
      decoded data, which threw. Nothing is pulled, acknowledged or handled
      afterwards. */
  lemma {:induction false} CyclesStopAtThrow(cfg: Config, subscription: string, pulls: seq<Pull>, infiniteLoop: bool,
                                             decode: string -> Json, handler: Json -> bool)
    requires !Cycles(cfg, subscription, pulls, infiniteLoop, decode, handler).1
    ensures var ev := Cycles(cfg, subscription, pulls, infiniteLoop, decode, handler).0;
      && |ev| >= 2
      && ev[|ev| - 2].Acked?
      && ev[|ev| - 1] == Handled(decode(ev[|ev| - 2].inbound.data))
      && !handler(ev[|ev| - 1].payload)
    decreases |pulls|
  {
    var d := Dispatch(subscription, pulls[0].messages, pulls[0].now, decode, handler);
    var cycle := [Pulled(subscription, cfg.maxMessages, cfg.returnImmediately)] + d.0;
    if d.1 {
      var rest := Cycles(cfg, subscription, pulls[1..], infiniteLoop, decode, handler);
      CyclesStopAtThrow(cfg, subscription, pulls[1..], infiniteLoop, decode, handler);
      var ev := cycle + SleepAfterCycle(cfg, infiniteLoop) + rest.0;
      assert ev[|ev| - 2] == rest.0[|rest.0| - 2];
      assert ev[|ev| - 1] == rest.0[|rest.0| - 1];
    } else {
      FailedHandlerMessageWasAcked(subscription, pulls[0].messages, pulls[0].now, decode, handler);
      assert cycle[|cycle| - 2] == d.0[|d.0| - 2];
      assert cycle[|cycle| - 1] == d.0[|d.0| - 1];
    }
  }

  /** Every event of a cycle's message loop is an acknowledgment or a handler
      call. */
  lemma {:induction false} DispatchOnlyAcksAndHandles(subscription: string, ms: seq<InboundMessage>, now: int,
                                                      decode: string -> Json, handler: Json -> bool)
    ensures forall e :: e in Dispatch(subscription, ms, now, decode, handler).0 ==> e.Acked? || e.Handled?
    decreases |ms|
  {
    if ms != [] {
      DispatchOnlyAcksAndHandles(subscription, ms[1..], now, decode, handler);
    }
  }

  /** Without the infinite loop, `subscribe` pulls exactly once and never
      sleeps. */
  lemma SingleCycleWithoutLoop(cfg: Config, subscription: string, first: Pull, later: seq<Pull>,
                               decode: string -> Json, handler: Json -> bool)
    ensures var ev := Cycles(cfg, subscription, Rounds(false, first, later), false, decode, handler).0;
      && ev == [Pulled(subscription, cfg.maxMessages, cfg.returnImmediately)]
               + Dispatch(subscription, first.messages, first.now, decode, handler).0
      && (forall j :: 0 <= j < |ev| ==> (ev[j].Pulled? <==> j == 0))
      && (forall e :: e in ev ==> !e.Slept?)
  {
    var d := Dispatch(subscription, first.messages, first.now, decode, handler);
    DispatchOnlyAcksAndHandles(subscription, first.messages, first.now, decode, handler);
    var head := [Pulled(subscription, cfg.maxMessages, cfg.returnImmediately)];
    var ev := Cycles(cfg, subscription, [first], false, decode, handler).0;
    assert [first][1..] == [];
    assert SleepAfterCycle(cfg, false) == [];
    assert Cycles(cfg, subscription, [], false, decode, handler).0 == [];
    assert head + d.0 + [] + [] == head + d.0;
    assert ev == head + d.0;
    forall j | 0 < j < |ev|
      ensures !ev[j].Pulled?
    {
      assert ev[j] == d.0[j - 1];
      assert d.0[j - 1] in d.0;
    }
  }

  /** A sleep in a `subscribe` run lasts the configured delay and happens only
      in an infinite loop of immediate-return pulls with a non-zero delay. */
  lemma {:induction false} SleepOnlyWhenConfigured(cfg: Config, subscription: string, pulls: seq<Pull>,
                                                   infiniteLoop: bool, decode: string -> Json,
                                                   handler: Json -> bool, seconds: int)
    requires Slept(seconds) in Cycles(cfg, subscription, pulls, infiniteLoop, decode, handler).0
    ensures seconds == cfg.delay && infiniteLoop && cfg.returnImmediately && cfg.delay != 0
    decreases |pulls|
  {
    var p := pulls[0];
    var d := Dispatch(subscription, p.messages, p.now, decode, handler);
    DispatchOnlyAcksAndHandles(subscription, p.messages, p.now, decode, handler);
    var head := [Pulled(subscription, cfg.maxMessages, cfg.returnImmediately)];
    assert Slept(seconds) !in head + d.0;
    if d.1 {
      var sleep := SleepAfterCycle(cfg, infiniteLoop);
      var rest := Cycles(cfg, subscription, pulls[1..], infiniteLoop, decode, handler);
      if Slept(seconds) !in sleep {
        SleepOnlyWhenConfigured(cfg, subscription, pulls[1..], infiniteLoop, decode, handler, seconds);
      }
    }
  }

  /** Conversely, in an infinite loop of immediate-return pulls with a
      non-zero delay, a cycle whose handler calls all return is followed by a
      sleep of the configured delay. */
  lemma SleepAfterCompletedCycle(cfg: Config, subscription: string, pulls: seq<Pull>,
                                 decode: string -> Json, handler: Json -> bool)
    requires cfg.returnImmediately && cfg.delay != 0
    requires pulls != []
    requires Dispatch(subscription, pulls[0].messages, pulls[0].now, decode, handler).1
    ensures var ev := Cycles(cfg, subscription, pulls, true, decode, handler).0;
      var n := 1 + |Dispatch(subscription, pulls[0].messages, pulls[0].now, decode, handler).0|;
      n < |ev| && ev[n] == Slept(cfg.delay)
  {
  }

  /** A structured payload published to a topic reaches the handler of a
      `subscribe` cycle that pulls it as the value that was published, given
      that decoding undoes encoding for that value; a text payload reaches it
      as the decoding of the text. */
  lemma PublishedPayloadReachesHandler(cfg: Config, b: Broker, topicBase: string, payload: Payload,
                                       attrs: AttributeArray, encode: Json -> string, decode: string -> Json,
                                       handler: Json -> bool, subscription: string, m: InboundMessage, now: int)
    requires Publish(cfg, b, topicBase, payload, attrs, encode).result.Ok?
    requires m.data == Publish(cfg, b, topicBase, payload, attrs, encode).result.value.data
    requires !Delayed(m, now)
    requires payload.Structured? ==> decode(encode(payload.value)) == payload.value
    ensures var expected := if payload.Structured? then payload.value else decode(payload.text);
      Dispatch(subscription, [m], now, decode, handler).0 == [Acked(subscription, m), Handled(expected)]
  {
  }
}

=== FILE: model.dfy ===
/**
 The data model of the Pub/Sub adapter: its configuration record, an abstract
 broker state, the messages that cross the adapter, and the trace of broker
 calls, handler calls and sleeps that an operation leaves behind.
 */
module Model {

  datatype Option<+T> = None | Some(value: T)

  /** The failures an operation can end with. The first four are raised by the
      adapter itself; the two conflicts stand for the broker refusing to create
      a resource that already exists; the last is a handler that threw. */
  datatype Error =
    | UnexistingTopic
    | EmptyTopicName
    | UnexistingSubscription
    | InvalidAttributes
    | TopicAlreadyExists
    | SubscriptionAlreadyExists
    | HandlerFailed

  datatype Result<+T> = Ok(value: T) | Err(error: Error)

  /** A decoded JSON value, as `json_decode(..., true)` hands it to a handler:
      objects come back as associative arrays, kept here in key order. A number
      with a fraction or an exponent comes back as a float, kept here as an
      exact `real`. A string that is not valid JSON decodes to `JNull`. */
  datatype Json =
    | JNull
    | JBool(flag: bool)
    | JInt(number: int)
    | JFloat(value: real)
    | JString(text: string)
    | JList(items: seq<Json>)
    | JObject(fields: seq<(string, Json)>)

  /** The adapter's tunables, with the defaults below. `callPeriod` is a float
      and is not part of the model. */
  datatype Config = Config(
    debug: bool,
    delay: int,
    maxMessages: int,
    batchSize: int,
    returnImmediately: bool,
    autoCreateTopic: bool,
    autoCreateSubscription: bool,
    autoCreateTopicFromSubscription: bool,
    topicSuffix: string,
    subscriptionSuffix: string)

  /** The configuration of a freshly constructed adapter. */
  const DefaultConfig: Config := Config(
    debug := false,
    delay := 0,
    maxMessages := 100,
    batchSize := 100,
    returnImmediately := false,
    autoCreateTopic := true,
    autoCreateSubscription := true,
    autoCreateTopicFromSubscription := true,
    topicSuffix := "",
    subscriptionSuffix := "")

  /** What the broker knows: the full names of the existing topics, and every
      existing subscription's full name mapped to the full name of the topic it
      was bound to when it was created, or to `None` once that topic has been
      deleted (the broker then reports the subscription's topic as
      `_deleted-topic_`, and a topic created later under the same name does
      not get it back). */
  datatype Broker = Broker(topics: set<string>, subscriptions: map<string, Option<string>>)

  /** A message as a pull returns it. `availableAt` is the parsed value of the
      message's `availableAt` attribute: `None` when the attribute is missing
      or empty, `Some(0)` for the falsy string "0". */
  datatype InboundMessage = InboundMessage(
    id: string,
    ackId: string,
    data: string,
    availableAt: Option<int>)

  /** A message as `publish` hands it to the broker: the `attributes` entry is
      present only when the caller gave a non-empty attribute array. */
  datatype OutboundMessage = OutboundMessage(
    data: string,
    attributes: Option<seq<(string, string)>>)

  /** Properties passed to an update call, uninterpreted. */
  type Properties = seq<(string, Json)>

  /** One observable step: a broker call that succeeded, a handler call or a
      sleep. A creation the broker rejects as a conflict leaves no event. */
  datatype Event =
    | TopicLookup(topic: string)
    | TopicCreated(topic: string)
    | TopicDeleted(topic: string)
    | TopicUpdated(topic: string, properties: Properties)
    | SubscriptionLookup(subscription: string)
    | SubscriptionCreated(subscription: string, topic: string)
    | SubscriptionDeleted(subscription: string)
    | SubscriptionUpdated(subscription: string, properties: Properties)
    | Published(topic: string, outbound: OutboundMessage)
    | Pulled(subscription: string, maxMessages: int, returnImmediately: bool)
    | Acked(subscription: string, inbound: InboundMessage)
    | Handled(payload: Json)
    | Slept(seconds: int)

  /** Events that only look up or create topics and subscriptions. */
  predicate IsProvisioning(e: Event) {
    e.TopicLookup? || e.TopicCreated? || e.SubscriptionLookup? || e.SubscriptionCreated?
  }

  /** The outcome of an operation: its result, the broker state afterwards
      (kept on failure too, since an exception does not undo earlier broker
      calls) and the events it caused, in order. */
  datatype Run<+T> = Run(result: Result<T>, broker: Broker, trace: seq<Event>)
}

=== FILE: naming.dfy ===
/**
 Full names of topics and subscriptions. The adapter calls its configured
 name prefixes "suffixes", but prepends them to the base name.
 */
module Naming {
  import opened Model

  /** The base name inside `full`, if `full` starts with `prefix`. */
  function Unqualify(prefix: string, full: string): Option<string>
  {
    if prefix <= full then Some(full[|prefix|..]) else None
  }

  /** Prepends `prefix` to `base`; undone by `Unqualify`. */
  function Qualify(prefix: string, base: string): (full: string)
    ensures |full| == |prefix| + |base|
    ensures Unqualify(prefix, full) == Some(base)
  {
    var full := prefix + base;
    assert full[..|prefix|] == prefix;
    assert full[|prefix|..] == base;
    full
  }

  /** Qualifying is the only way to produce a name that unqualifies to `base`. */
  lemma UnqualifyOnlyUndoesQualify(prefix: string, full: string, base: string)
    ensures Unqualify(prefix, full) == Some(base) <==> full == Qualify(prefix, base)
  {
  }

  /** Two base names qualify to the same full name only if they are equal. */
  lemma QualifyInjective(prefix: string, a: string, b: string)
    requires Qualify(prefix, a) == Qualify(prefix, b)
    ensures a == b
  {
  }

  /** The full topic name under the configured topic prefix. */
  function TopicName(cfg: Config, base: string): (full: string)
    ensures Unqualify(cfg.topicSuffix, full) == Some(base)
  {
    Qualify(cfg.topicSuffix, base)
  }

  /** The full subscription name under the configured subscription prefix. */
  function SubscriptionName(cfg: Config, base: string): (full: string)
    ensures Unqualify(cfg.subscriptionSuffix, full) == Some(base)
  {
    Qualify(cfg.subscriptionSuffix, base)
  }

  /** A full name is determined by the base name and the prefix alone, and is
      the prefix followed by the base name. */
  lemma FullNamesArePrefixed(cfg: Config, base: string)
    ensures TopicName(cfg, base) == cfg.topicSuffix + base
    ensures SubscriptionName(cfg, base) == cfg.subscriptionSuffix + base
    ensures forall other: Config :: other.topicSuffix == cfg.topicSuffix ==> TopicName(other, base) == TopicName(cfg, base)
    ensures forall other: Config :: other.subscriptionSuffix == cfg.subscriptionSuffix ==>
      SubscriptionName(other, base) == SubscriptionName(cfg, base)
  {
  }
}

=== FILE: provisioning.dfy ===
/**
 Get-or-create provisioning of topics and subscriptions, and the
 provision-then-act operations built on it (delete and update). A "get" may
 create a topic and a subscription as a side effect, as the config flags
 allow.
 */
module Provisioning {
  import opened Model
  import opened Naming

  /** PHP truthiness of a string: only "" and "0" are falsy. */
  predicate Falsy(s: string) {
    s == "" || s == "0"
  }

  /** Every subscription that is still attached is bound to a topic that
      exists. */
  predicate BindingsValid(b: Broker) {
    forall s :: s in b.subscriptions && b.subscriptions[s].Some? ==> b.subscriptions[s].value in b.topics
  }

  /** `after` keeps every topic of `before`, and every subscription of `before`
      with its original binding. */
  predicate Extends(before: Broker, after: Broker) {
    && before.topics <= after.topics
    && forall s :: s in before.subscriptions ==>
         s in after.subscriptions && after.subscriptions[s] == before.subscriptions[s]
  }

  /** The client's `createTopic` under the full name. */
  function CreateTopic(cfg: Config, b: Broker, base: string): (r: Run<string>)
    ensures r.result.Ok? <==> TopicName(cfg, base) !in b.topics
    ensures r.result.Ok? ==>
      && r.result.value == TopicName(cfg, base)
      && r.broker == b.(topics := b.topics + {TopicName(cfg, base)})
      && r.trace == [TopicCreated(TopicName(cfg, base))]
    ensures r.result.Err? ==> r == Run(Err(TopicAlreadyExists), b, [])
  {
    var name := TopicName(cfg, base);
    if name in b.topics then Run(Err(TopicAlreadyExists), b, [])
    else Run(Ok(name), b.(topics := b.topics + {name}), [TopicCreated(name)])
  }

  /** `getTopic`: looks the full name up, creates the topic when it is missing
      and `autoCreateTopic` is set, and fails with 'Unexisting topic'
      otherwise. */
  function GetTopic(cfg: Config, b: Broker, base: string): (r: Run<string>)
    ensures |r.trace| >= 1 && r.trace[0] == TopicLookup(TopicName(cfg, base))
    ensures r.result.Ok? <==> TopicName(cfg, base) in b.topics || cfg.autoCreateTopic
    ensures TopicName(cfg, base) in b.topics ==> r == Run(Ok(TopicName(cfg, base)), b, [TopicLookup(TopicName(cfg, base))])
    ensures r.result.Ok? ==> r.result.value == TopicName(cfg, base) && r.result.value in r.broker.topics
    ensures r.result.Ok? ==> r.broker.topics == b.topics + {TopicName(cfg, base)}
    ensures r.result.Err? ==> r == Run(Err(UnexistingTopic), b, [TopicLookup(TopicName(cfg, base))])
    ensures r.broker.subscriptions == b.subscriptions
    ensures TopicCreated(TopicName(cfg, base)) in r.trace <==> TopicName(cfg, base) !in b.topics && cfg.autoCreateTopic
    ensures TopicName(cfg, base) !in b.topics && cfg.autoCreateTopic ==>
      r.trace == [TopicLookup(TopicName(cfg, base)), TopicCreated(TopicName(cfg, base))]
    ensures forall e :: e in r.trace ==> IsProvisioning(e)
  {
    var name := TopicName(cfg, base);
    if name in b.topics then
      Run(Ok(name), b, [TopicLookup(name)])
    else if cfg.autoCreateTopic then
      var c := CreateTopic(cfg, b, base);
      Run(c.result, c.broker, [TopicLookup(name)] + c.trace)
    else
      Run(Err(UnexistingTopic), b, [TopicLookup(name)])
  }

  /** A second `getTopic` right after a successful one finds the topic and
      changes nothing. */
  lemma GetTopicIdempotent(cfg: Config, b: Broker, base: string)
    requires GetTopic(cfg, b, base).result.Ok?
    ensures var first := GetTopic(cfg, b, base);
      GetTopic(cfg, first.broker, base) == Run(first.result, first.broker, [TopicLookup(TopicName(cfg, base))])
  {
  }

  /** The topic base name `createSubscription` uses: the given one, or, when it
      is falsy, the subscription's own base name if
      `autoCreateTopicFromSubscription` allows it. */
  function TopicBaseFor(cfg: Config, subscription: string, topicBase: string): (r: Result<string>)
    ensures r.Err? <==> Falsy(topicBase) && !cfg.autoCreateTopicFromSubscription
    ensures r.Err? ==> r.error == EmptyTopicName
    ensures r.Ok? && !Falsy(topicBase) ==> r.value == topicBase
    ensures r.Ok? && Falsy(topicBase) ==> r.value == subscription
  {
    if !Falsy(topicBase) then Ok(topicBase)
    else if cfg.autoCreateTopicFromSubscription then Ok(subscription)
    else Err(EmptyTopicName)
  }

  /** `createSubscription`: resolves the topic through `getTopic` and creates
      the subscription bound to it. */
  function CreateSubscription(cfg: Config, b: Broker, subscription: string, topicBase: string): (r: Run<string>)
    ensures TopicBaseFor(cfg, subscription, topicBase).Err? ==> r == Run(Err(EmptyTopicName), b, [])
    ensures TopicBaseFor(cfg, subscription, topicBase).Ok? ==>
      var t := TopicBaseFor(cfg, subscription, topicBase).value;
      var g := GetTopic(cfg, b, t);
      && (g.result.Err? ==> r == Run(Err(UnexistingTopic), b, g.trace))
      && (g.result.Ok? ==> r.broker.topics == g.broker.topics)
      && (g.result.Ok? ==> (r.result.Ok? <==> SubscriptionName(cfg, subscription) !in b.subscriptions))
      && (g.result.Ok? && r.result.Err? ==> r == Run(Err(SubscriptionAlreadyExists), g.broker, g.trace))
      && (r.result.Ok? ==>
            && r.result.value == SubscriptionName(cfg, subscription)
            && r.broker.subscriptions == b.subscriptions[r.result.value := Some(TopicName(cfg, t))]
            && r.trace == g.trace + [SubscriptionCreated(r.result.value, TopicName(cfg, t))])
    ensures r.result.Err? ==> r.result.error in {EmptyTopicName, UnexistingTopic, SubscriptionAlreadyExists}
    ensures r.result.Err? ==> r.broker.subscriptions == b.subscriptions
    ensures Extends(b, r.broker)
    ensures BindingsValid(b) ==> BindingsValid(r.broker)
    ensures forall e :: e in r.trace ==> IsProvisioning(e)
  {
    match TopicBaseFor(cfg, subscription, topicBase)
    case Err(e) => Run(Err(e), b, [])
    case Ok(t) =>
      var g := GetTopic(cfg, b, t);
      if g.result.Err? then Run(Err(g.result.error), g.broker, g.trace)
      else
        var name := SubscriptionName(cfg, subscription);
        if name in g.broker.subscriptions then Run(Err(SubscriptionAlreadyExists), g.broker, g.trace)
        else Run(Ok(name),
                 g.broker.(subscriptions := g.broker.subscriptions[name := Some(g.result.value)]),
                 g.trace + [SubscriptionCreated(name, g.result.value)])
  }

  /** `getSubscription`: looks the full name up, and when it is missing either
      behaves as `createSubscription` (if `autoCreateSubscription`) or fails
      with 'Unexisting subscription' without touching any topic. */
  function GetSubscription(cfg: Config, b: Broker, subscription: string, topicBase: string): (r: Run<string>)
    ensures |r.trace| >= 1 && r.trace[0] == SubscriptionLookup(SubscriptionName(cfg, subscription))
    ensures SubscriptionName(cfg, subscription) in b.subscriptions ==>
      r == Run(Ok(SubscriptionName(cfg, subscription)), b, [SubscriptionLookup(SubscriptionName(cfg, subscription))])
    ensures SubscriptionName(cfg, subscription) !in b.subscriptions && cfg.autoCreateSubscription ==>
      var c := CreateSubscription(cfg, b, subscription, topicBase);
      r == Run(c.result, c.broker, [SubscriptionLookup(SubscriptionName(cfg, subscription))] + c.trace)
    ensures SubscriptionName(cfg, subscription) !in b.subscriptions && !cfg.autoCreateSubscription ==>
      r == Run(Err(UnexistingSubscription), b, [SubscriptionLookup(SubscriptionName(cfg, subscription))])
    ensures r.result.Ok? ==> r.result.value == SubscriptionName(cfg, subscription) && r.result.value in r.broker.subscriptions
    ensures r.result.Err? ==> r.result.error in {UnexistingSubscription, EmptyTopicName, UnexistingTopic}
    ensures Extends(b, r.broker)
    ensures BindingsValid(b) ==> BindingsValid(r.broker)
    ensures forall e :: e in r.trace ==> IsProvisioning(e)
  {
    var name := SubscriptionName(cfg, subscription);
    if name in b.subscriptions then
      Run(Ok(name), b, [SubscriptionLookup(name)])
    else if cfg.autoCreateSubscription then
      var c := CreateSubscription(cfg, b, subscription, topicBase);
      Run(c.result, c.broker, [SubscriptionLookup(name)] + c.trace)
    else
      Run(Err(UnexistingSubscription), b, [SubscriptionLookup(name)])
  }

  /** After a successful `getSubscription`, a second one finds the
      subscription and changes nothing, whatever topic name it is given. */
  lemma GetSubscriptionIdempotent(cfg: Config, b: Broker, subscription: string, topicBase: string, otherTopic: string)
    requires GetSubscription(cfg, b, subscription, topicBase).result.Ok?
    ensures var first := GetSubscription(cfg, b, subscription, topicBase);
      GetSubscription(cfg, first.broker, subscription, otherTopic)
        == Run(first.result, first.broker, [SubscriptionLookup(SubscriptionName(cfg, subscription))])
  {
  }

  /** A subscription that `getSubscription` creates is bound to the topic
      named after the effective topic base, and that topic exists. */
  lemma CreatedSubscriptionBinding(cfg: Config, b: Broker, subscription: string, topicBase: string)
    requires SubscriptionName(cfg, subscription) !in b.subscriptions
    requires GetSubscription(cfg, b, subscription, topicBase).result.Ok?
    ensures TopicBaseFor(cfg, subscription, topicBase).Ok?
    ensures var r := GetSubscription(cfg, b, subscription, topicBase);
      var topic := TopicName(cfg, TopicBaseFor(cfg, subscription, topicBase).value);
      && r.broker.subscriptions[SubscriptionName(cfg, subscription)] == Some(topic)
      && topic in r.broker.topics
  {
  }

  /** The subscriptions after `topic` is deleted: every subscription survives,
      and those bound to `topic` are detached. */
  function Detach(subscriptions: map<string, Option<string>>, topic: string): (after: map<string, Option<string>>)
    ensures after.Keys == subscriptions.Keys
    ensures forall s :: s in subscriptions ==>
      after[s] == if subscriptions[s] == Some(topic) then None else subscriptions[s]
  {
    map s | s in subscriptions :: if subscriptions[s] == Some(topic) then None else subscriptions[s]
  }

  /** `deleteTopic`: provisions the topic through `getTopic`, then deletes it.
      The topic's subscriptions survive, detached from it. */
  function DeleteTopic(cfg: Config, b: Broker, base: string): (r: Run<string>)
    ensures var g := GetTopic(cfg, b, base);
      && r.result == g.result
      && (g.result.Err? ==> r == Run(Err(UnexistingTopic), b, g.trace))
      && (g.result.Ok? ==> r.trace == g.trace + [TopicDeleted(TopicName(cfg, base))])
    ensures r.result.Ok? ==>
      && r.result.value == TopicName(cfg, base)
      && r.broker.topics == b.topics - {TopicName(cfg, base)}
      && r.broker.subscriptions.Keys == b.subscriptions.Keys
      && forall s :: s in b.subscriptions ==>
           r.broker.subscriptions[s] == if b.subscriptions[s] == Some(TopicName(cfg, base)) then None else b.subscriptions[s]
  {
    var g := GetTopic(cfg, b, base);
    if g.result.Err? then g
    else Run(g.result,
             Broker(g.broker.topics - {g.result.value}, Detach(g.broker.subscriptions, g.result.value)),
             g.trace + [TopicDeleted(g.result.value)])
  }

  /** `updateTopic`: provisions the topic through `getTopic`, then updates it. */
  function UpdateTopic(cfg: Config, b: Broker, base: string, properties: Properties): (r: Run<string>)
    ensures var g := GetTopic(cfg, b, base);
      && r.result == g.result
      && r.broker == g.broker
      && (g.result.Err? ==> r.trace == g.trace)
      && (g.result.Ok? ==> r.trace == g.trace + [TopicUpdated(TopicName(cfg, base), properties)])
  {
    var g := GetTopic(cfg, b, base);
    if g.result.Err? then g
    else Run(g.result, g.broker, g.trace + [TopicUpdated(g.result.value, properties)])
  }

  /** `deleteSubscription`: provisions the subscription through
      `getSubscription` with no topic name, then deletes it. */
  function DeleteSubscription(cfg: Config, b: Broker, subscription: string): (r: Run<string>)
    ensures var g := GetSubscription(cfg, b, subscription, "");
      && r.result == g.result
      && (g.result.Err? ==> r == g)
      && (g.result.Ok? ==> r.trace == g.trace + [SubscriptionDeleted(SubscriptionName(cfg, subscription))])
      && r.broker.topics == g.broker.topics
    ensures r.result.Ok? ==>
      && r.result.value == SubscriptionName(cfg, subscription)
      && r.broker.subscriptions == b.subscriptions - {SubscriptionName(cfg, subscription)}
    ensures b.topics <= r.broker.topics
  {
    var g := GetSubscription(cfg, b, subscription, "");
    if g.result.Err? then g
    else Run(g.result, g.broker.(subscriptions := g.broker.subscriptions - {g.result.value}),
             g.trace + [SubscriptionDeleted(g.result.value)])
  }

  /** `updateSubscription`: provisions the subscription through
      `getSubscription` with no topic name, then updates it. */
  function UpdateSubscription(cfg: Config, b: Broker, subscription: string, properties: Properties): (r: Run<string>)
    ensures var g := GetSubscription(cfg, b, subscription, "");
      && r.result == g.result
      && r.broker == g.broker
      && (g.result.Err? ==> r.trace == g.trace)
      && (g.result.Ok? ==> r.trace == g.trace + [SubscriptionUpdated(SubscriptionName(cfg, subscription), properties)])
  {
    var g := GetSubscription(cfg, b, subscription, "");
    if g.result.Err? then g
    else Run(g.result, g.broker, g.trace + [SubscriptionUpdated(g.result.value, properties)])
  }

  /** Deleting a topic right after creating it restores the broker: the
      deletion finds the topic with one lookup and removes exactly it. */
  lemma DeleteTopicUndoesCreate(cfg: Config, b: Broker, base: string)
    requires BindingsValid(b)
    requires TopicName(cfg, base) !in b.topics
    ensures var name := TopicName(cfg, base);
      DeleteTopic(cfg, CreateTopic(cfg, b, base).broker, base) == Run(Ok(name), b, [TopicLookup(name), TopicDeleted(name)])
  {
  }

  /** Deleting a topic keeps every attached subscription bound to an existing
      topic: those of the deleted topic are detached. */
  lemma DeleteTopicKeepsBindings(cfg: Config, b: Broker, base: string)
    requires BindingsValid(b)
    ensures BindingsValid(DeleteTopic(cfg, b, base).broker)
  {
  }

  /** A topic deleted and then provisioned again through `getTopic` has no
      subscriptions: the old ones stay detached. */
  lemma RecreatedTopicHasNoSubscriptions(cfg: Config, b: Broker, base: string)
    requires DeleteTopic(cfg, b, base).result.Ok?
    ensures var again := GetTopic(cfg, DeleteTopic(cfg, b, base).broker, base).broker;
      forall s :: s in again.subscriptions ==> again.subscriptions[s] != Some(TopicName(cfg, base))
  {
  }

  /** Deleting a subscription right after creating it restores the
      subscriptions as they were; a topic created on the way stays. */
  lemma DeleteSubscriptionUndoesCreate(cfg: Config, b: Broker, subscription: string, topicBase: string)
    requires CreateSubscription(cfg, b, subscription, topicBase).result.Ok?
    ensures var c := CreateSubscription(cfg, b, subscription, topicBase);
      var name := SubscriptionName(cfg, subscription);
      DeleteSubscription(cfg, c.broker, subscription)
        == Run(Ok(name), Broker(c.broker.topics, b.subscriptions), [SubscriptionLookup(name), SubscriptionDeleted(name)])
  {
  }

  /** Deleting a subscription keeps every remaining subscription bound to an
      existing topic. */
  lemma DeleteSubscriptionKeepsBindings(cfg: Config, b: Broker, subscription: string)
    requires BindingsValid(b)
    ensures BindingsValid(DeleteSubscription(cfg, b, subscription).broker)
  {
  }

  /** Updating an existing topic leaves the broker state as it was: one
      lookup, then the update. */
  lemma UpdateExistingTopicChangesNothing(cfg: Config, b: Broker, base: string, properties: Properties)
    requires TopicName(cfg, base) in b.topics
    ensures var t := TopicName(cfg, base);
      UpdateTopic(cfg, b, base, properties) == Run(Ok(t), b, [TopicLookup(t), TopicUpdated(t, properties)])
  {
  }

  /** Updating an existing subscription leaves the broker state as it was:
      one lookup, then the update. */
  lemma UpdateExistingSubscriptionChangesNothing(cfg: Config, b: Broker, subscription: string, properties: Properties)
    requires SubscriptionName(cfg, subscription) in b.subscriptions
    ensures var s := SubscriptionName(cfg, subscription);
      UpdateSubscription(cfg, b, subscription, properties) == Run(Ok(s), b, [SubscriptionLookup(s), SubscriptionUpdated(s, properties)])
  {
  }

  /** With the flags of a freshly constructed adapter (all three auto-create
      flags on, empty prefixes), `getTopic` and `getSubscription` never fail:
      a missing topic or subscription is created under the base name itself. */
  lemma DefaultsAlwaysProvision(b: Broker, subscription: string, topicBase: string)
    ensures GetTopic(DefaultConfig, b, topicBase).result == Ok(topicBase)
    ensures GetSubscription(DefaultConfig, b, subscription, topicBase).result == Ok(subscription)
  {
  }

  /** Deleting a missing subscription under the default flags provisions it
      first: the topic named after the subscription is created and stays
      behind once the subscription is gone. */
  lemma DeleteMissingSubscriptionLeavesTopic(b: Broker, subscription: string)
    requires SubscriptionName(DefaultConfig, subscription) !in b.subscriptions
    requires TopicName(DefaultConfig, subscription) !in b.topics
    ensures var r := DeleteSubscription(DefaultConfig, b, subscription);
      && r.result == Ok(subscription)
      && r.broker == Broker(b.topics + {subscription}, b.subscriptions)
      && r.trace == [SubscriptionLookup(subscription), TopicLookup(subscription), TopicCreated(subscription),
                     SubscriptionCreated(subscription, subscription), SubscriptionDeleted(subscription)]
  {
  }
}

=== FILE: publishing.dfy ===
/**
 Publishing one message: attribute validation and the shaping of the
 message handed to the broker.
 */
module Publishing {
  import opened Model
  import opened Naming
  import opened Provisioning

  /** A key of a PHP array: PHP stores decimal-integer string keys as
      integers, so such keys arrive here as `IntKey`. */
  datatype Key = StringKey(name: string) | IntKey(index: int)

  /** A PHP attribute array, in insertion order, with arbitrary values. */
  type AttributeArray = seq<(Key, Json)>

  /** A PHP array or object: the only values `publish` JSON-encodes. */
  type Structure = v: Json | v.JList? || v.JObject? witness JList([])

  /** The value passed to `publish`: arrays and objects are structured and
      encoded, strings are sent as they are. */
  datatype Payload = Text(text: string) | Structured(value: Structure)

  /** Both halves of an attribute entry are strings. */
  predicate IsStringPair(entry: (Key, Json)) {
    entry.0.StringKey? && entry.1.JString?
  }

  /** `count(array_filter($attributes, 'is_string'))`: the number of string values. */
  function StringValueCount(attrs: AttributeArray): (n: nat)
    ensures n <= |attrs|
    ensures n == |attrs| <==> forall i :: 0 <= i < |attrs| ==> attrs[i].1.JString?
  {
    if attrs == [] then 0
    else (if attrs[0].1.JString? then 1 else 0) + StringValueCount(attrs[1..])
  }

  /** `count(array_filter(array_keys($attributes), 'is_string'))`: the number
      of string keys. */
  function StringKeyCount(attrs: AttributeArray): (n: nat)
    ensures n <= |attrs|
    ensures n == |attrs| <==> forall i :: 0 <= i < |attrs| ==> attrs[i].0.StringKey?
  {
    if attrs == [] then 0
    else (if attrs[0].0.StringKey? then 1 else 0) + StringKeyCount(attrs[1..])
  }

  /** The attribute array as string pairs, once every entry is known to be one. */
  function AsStringPairs(attrs: AttributeArray): (pairs: seq<(string, string)>)
    requires forall i :: 0 <= i < |attrs| ==> IsStringPair(attrs[i])
    ensures Embed(pairs) == attrs
  {
    if attrs == [] then []
    else
      assert IsStringPair(attrs[0]);
      [(attrs[0].0.name, attrs[0].1.text)] + AsStringPairs(attrs[1..])
  }

  /** String pairs viewed as a PHP attribute array. */
  function Embed(pairs: seq<(string, string)>): (attrs: AttributeArray)
    ensures |attrs| == |pairs|
    ensures forall i :: 0 <= i < |pairs| ==> attrs[i] == (StringKey(pairs[i].0), JString(pairs[i].1))
  {
    seq(|pairs|, i requires 0 <= i < |pairs| => (StringKey(pairs[i].0), JString(pairs[i].1)))
  }

  /** `validateMessageAttributes`: accepts exactly the arrays whose keys and
      values are all strings, and returns them unchanged. */
  function ValidateMessageAttributes(attrs: AttributeArray): (r: Result<seq<(string, string)>>)
    ensures r.Ok? <==> forall i :: 0 <= i < |attrs| ==> IsStringPair(attrs[i])
    ensures r.Err? ==> r.error == InvalidAttributes
    ensures r.Ok? ==> Embed(r.value) == attrs
  {
    if StringValueCount(attrs) != |attrs| then Err(InvalidAttributes)
    else if StringKeyCount(attrs) != |attrs| then Err(InvalidAttributes)
    else Ok(AsStringPairs(attrs))
  }

  /** Validation gives back any array of string pairs as it was. */
  lemma {:induction false} ValidateEmbedded(pairs: seq<(string, string)>)
    ensures ValidateMessageAttributes(Embed(pairs)) == Ok(pairs)
  {
    var r := ValidateMessageAttributes(Embed(pairs));
    assert forall i :: 0 <= i < |Embed(pairs)| ==> IsStringPair(Embed(pairs)[i]);
    assert |r.value| == |pairs| by { assert |Embed(r.value)| == |Embed(pairs)|; }
    forall i | 0 <= i < |pairs|
      ensures r.value[i] == pairs[i]
    {
      assert Embed(r.value)[i] == Embed(pairs)[i];
    }
    assert r.value == pairs;
  }

  /** The `data` field of the published message. */
  function PayloadData(payload: Payload, encode: Json -> string): string
  {
    match payload
    case Text(s) => s
    case Structured(v) => encode(v)
  }

  /** `publish`: shapes the message, validates a non-empty attribute array
      before any broker call, provisions the topic through `getTopic`, and
      publishes. The broker's publish response is not modelled; the result is
      the message handed to it. */
  function Publish(cfg: Config, b: Broker, topicBase: string, payload: Payload,
                   attrs: AttributeArray, encode: Json -> string): (r: Run<OutboundMessage>)
    ensures ValidateMessageAttributes(attrs).Err? ==> r == Run(Err(InvalidAttributes), b, [])
    ensures ValidateMessageAttributes(attrs).Ok? ==>
      var g := GetTopic(cfg, b, topicBase);
      && r.broker == g.broker
      && (g.result.Err? ==> r.result == Err(UnexistingTopic) && r.trace == g.trace)
      && (g.result.Ok? ==> r.result.Ok? && r.trace == g.trace + [Published(TopicName(cfg, topicBase), r.result.value)])
    ensures r.result.Ok? ==> r.result.value.data == (if payload.Structured? then encode(payload.value) else payload.text)
    ensures r.result.Ok? ==> (r.result.value.attributes.Some? <==> |attrs| > 0)
    ensures r.result.Ok? && r.result.value.attributes.Some? ==> Embed(r.result.value.attributes.value) == attrs
  {
    var data := PayloadData(payload, encode);
    var validated := if |attrs| > 0 then ValidateMessageAttributes(attrs) else Ok([]);
    if validated.Err? then Run(Err(validated.error), b, [])
    else
      var message := OutboundMessage(data, if |attrs| > 0 then Some(validated.value) else None);
      var g := GetTopic(cfg, b, topicBase);
      if g.result.Err? then Run(Err(g.result.error), g.broker, g.trace)
      else Run(Ok(message), g.broker, g.trace + [Published(g.result.value, message)])
  }
}

=== FILE: scenarios.dfy ===
/**
 Concrete runs of the adapter that mirror the call sequences its test suite
 pins down, stated over the model.
 */
module Scenarios {
  import opened Model
  import opened Naming
  import opened Provisioning
  import opened Publishing
  import opened Consuming

  const Empty: Broker := Broker({}, map[])

  /** The configuration of the subscribe tests: ten messages per pull,
      immediate-return pulls, and both name prefixes set. */
  const Prefixed: Config := DefaultConfig.(
    maxMessages := 10,
    returnImmediately := true,
    topicSuffix := "mytopic_",
    subscriptionSuffix := "mysubscriber_")

  /** `getSubscription` on an empty broker with no topic name and both
      prefixes set creates the topic named after the subscription, then the
      subscription bound to it, in that order. */
  lemma ProvisionFromSubscriptionName()
    ensures GetSubscription(Prefixed, Empty, "id", "")
      == Run(Ok("mysubscriber_id"),
             Broker({"mytopic_id"}, map["mysubscriber_id" := Some("mytopic_id")]),
             [SubscriptionLookup("mysubscriber_id"), TopicLookup("mytopic_id"),
              TopicCreated("mytopic_id"), SubscriptionCreated("mysubscriber_id", "mytopic_id")])
  {
    FullNamesArePrefixed(Prefixed, "id");
    assert SubscriptionName(Prefixed, "id") == "mysubscriber_id";
    assert TopicName(Prefixed, "id") == "mytopic_id";
    assert TopicBaseFor(Prefixed, "id", "") == Ok("id");
  }

  /** Without `autoCreateSubscription`, a missing subscription is an error
      and no topic is looked up. */
  lemma MissingSubscriptionTouchesNoTopic(topicBase: string)
    ensures GetSubscription(DefaultConfig.(autoCreateSubscription := false), Empty, "sub", topicBase)
      == Run(Err(UnexistingSubscription), Empty, [SubscriptionLookup("sub")])
  {
  }

  /** Without `autoCreateTopicFromSubscription`, an empty topic name fails
      before any broker call. */
  lemma EmptyTopicNameFailsFirst(b: Broker)
    ensures CreateSubscription(DefaultConfig.(autoCreateTopicFromSubscription := false), b, "sub", "")
      == Run(Err(EmptyTopicName), b, [])
  {
  }

  /** An attribute whose value is an array makes `publish` fail before the
      topic is looked up. */
  lemma PublishRejectsNestedAttribute(b: Broker, encode: Json -> string)
    ensures Publish(DefaultConfig, b, "topic", Text("test"),
                    [(StringKey("attribute1"), JObject([("test", JString("wrong"))]))], encode)
      == Run(Err(InvalidAttributes), b, [])
  {
  }

  /** Two messages pulled together, the first scheduled in the future and the
      second without a schedule: `consume` acknowledges and returns only the
      second. */
  lemma ConsumeSkipsFutureMessage(later: InboundMessage, ready: InboundMessage, now: int)
    requires later.availableAt == Some(now + 60) && now + 60 != 0
    requires ready.availableAt == None
    ensures Due([later, ready], now) == [ready]
    ensures Acks("sub", Due([later, ready], now)) == [Acked("sub", ready)]
  {
  }

  /** The one-pull subscribe test: both messages are acknowledged, each right
      before its decoded payload reaches the handler, and nothing else
      happens. */
  lemma OnePullSubscribe(m1: InboundMessage, m2: InboundMessage, decode: string -> Json, handler: Json -> bool)
    requires m1.availableAt == None && m2.availableAt == None
    requires decode(m1.data) == JObject([("test", JString("array"))])
    requires decode(m2.data) == JString("test string")
    requires handler(JObject([("test", JString("array"))])) && handler(JString("test string"))
    ensures Cycles(Prefixed, "mysubscriber_id", Rounds(false, Pull(0, [m1, m2]), []), false, decode, handler)
      == ([Pulled("mysubscriber_id", 10, true),
           Acked("mysubscriber_id", m1), Handled(JObject([("test", JString("array"))])),
           Acked("mysubscriber_id", m2), Handled(JString("test string"))], true)
  {
    var sub := "mysubscriber_id";
    var obj := JObject([("test", JString("array"))]);
    var str := JString("test string");
    assert [m1, m2][1..] == [m2];
    assert [m2][1..] == [];
    assert !Delayed(m1, 0) && !Delayed(m2, 0);
    var last := Dispatch(sub, [m2], 0, decode, handler);
    assert Dispatch(sub, [m2][1..], 0, decode, handler) == ([], true);
    assert decode(m2.data) == str && handler(str);
    assert last.1 && last.0 == [Acked(sub, m2), Handled(str)];
    var both := Dispatch(sub, [m1, m2], 0, decode, handler);
    assert decode(m1.data) == obj && handler(obj);
    assert both.1 && both.0 == [Acked(sub, m1), Handled(obj)] + last.0;
    var pulls := Rounds(false, Pull(0, [m1, m2]), []);
    assert pulls == [Pull(0, [m1, m2])];
    assert pulls[1..] == [];
    assert SleepAfterCycle(Prefixed, false) == [];
    var cycles := Cycles(Prefixed, sub, pulls, false, decode, handler);
    assert Cycles(Prefixed, sub, pulls[1..], false, decode, handler) == ([], true);
    assert cycles.1 && cycles.0 == [Pulled(sub, 10, true)] + both.0 + [] + [];
    assert cycles.0 == [Pulled(sub, 10, true), Acked(sub, m1), Handled(obj), Acked(sub, m2), Handled(str)];
  }
}
